=== FILE: README.md ===
# Salon booking: availability and booking-conflict model

A Dafny model of the availability and booking logic of a salon booking
backend (`backend/src/routes/booking.routes.ts`). The model has four parts.

- **Slot generator** (`Slots`). A salon's working hours for a weekday, a
  service duration and the day's fetched bookings give the offered start
  times, as `HH:mm` labels.
  - The day's window is the weekday's `{open, close}` entry. A weekday with
    no entry gets `09:00`–`18:00`.
  - Candidates are taken every 30 minutes from opening, while before closing.
  - A candidate is kept when the service ends by closing time and the slot
    conflicts with no fetched booking.
  - Each fetched booking is measured by its own service's duration.
- **Conflict rules** (`Intervals`). There are two rules.
  - The display-time rule is a three-clause test. Half-open overlap always
    trips it, and with positive lengths the two are proved equal.
  - The commit-time rule is a start window `(start − requested duration, start]`.
    It is proved to be a different rule.
- **Routes** (`BookingRoutes`). Each route is a pure function from the store
  and the request to the response and the new store.
  - The slot query fetches the salon's pending and confirmed bookings of the
    day.
  - `/book` runs the commit check, finds or creates the customer, and appends
    one `CONFIRMED` booking.
  - The status update is checked against the salon's owner and overwrites the
    status with any value.
- **Database** (`Database`). The datatype `Store` holds the four tables.
  Salons, services, users and bookings are sequences of immutable records.
  The database's guarantees (unique keys and resolving references) are the
  predicate `Valid`, and every route keeps it.

Times are integer minutes. A booking's `date` is an absolute minute. Request
day `d` covers `[1440·d, 1440·d + 1440)`. The generator works in minutes
after midnight of the requested day. The weekday is an input.

Four behaviours of the code are easy to misread and are modelled as written:

- **Commit-time rule.** `/book` does not reuse the display-time overlap test.
  It refuses a request only when an existing booking starts in the window
  `(start − requested duration, start]`, and it reads and writes in two
  separate steps.
- **Exact fit.** A service exactly as long as the window is offered at opening
  time (`slotEnd <= closeTime`). `ExactFitOffered` proves it.
- **No day bound.** The commit query has no date bound other than the window.
- **Customer before booking.** The guest customer is created before the
  booking is inserted. When the salon id does not exist, the insert fails
  (500) and the customer stays. `Book` models this.

The status update writes the first booking row whose id is the requested one
and whose salon the caller owns. Under `Valid` booking ids are unique, so that
row is the one the update-by-id writes.

## Model

| member | source | states |
|---|---|---|
| Clock.ParseClock | backend/src/routes/booking.routes.ts:249-256 | a time string is read exactly when it has the shape DD:DD, and its value is bounded by 99·60+99 (fields roll over like setHours) |
| Clock.ParseLabel | backend/src/routes/booking.routes.ts:275 | formatting a minute offset and reading it back gives the offset modulo one day, and the label is a canonical HH:mm |
| Clock.LabelParse | backend/src/routes/booking.routes.ts:249-256 | reading a canonical HH:mm and formatting it again gives the same string |
| Clock.LabelInjective | backend/src/routes/booking.routes.ts:275 | two different minutes of one day never share a label |
| Intervals.SlotConflictIsOverlap | backend/src/routes/booking.routes.ts:263-272 | for positive lengths the three-clause test holds iff `s < be && bs < e` |
| Intervals.OverlapImpliesConflict | backend/src/routes/booking.routes.ts:267-271 | for any lengths, a slot that shares a minute with a booking trips one of the three clauses |
| Intervals.ConflictsWithAnyIsOverlapsAny | backend/src/routes/booking.routes.ts:263-272 | for positive lengths, `some` over the three-clause test is "overlaps some fetched interval" |
| Intervals.BackToBackIsFree | backend/src/routes/booking.routes.ts:267-271 | intervals that only touch (one ends where the other starts) conflict under neither rule, in either order |
| Intervals.ZeroDurationBookingBlocks | backend/src/routes/booking.routes.ts:270 | a zero-length booking at a slot's start is blocked by the third clause though it shares no minute, so the equivalence needs positive lengths |
| Intervals.CommitWindowSound | backend/src/routes/booking.routes.ts:117-124 | a booking starting in the commit window overlaps the request when it is at least as long as the request |
| Intervals.CommitWindowComplete | backend/src/routes/booking.routes.ts:117-124 | an overlapping booking starting no later than the request is in the window when it is no longer than the request |
| Intervals.CommitWindowExactForEqualDurations | backend/src/routes/booking.routes.ts:117-124 | for equal positive lengths the window is exactly "overlaps and starts no later" |
| Intervals.LaterStartIsMissed | backend/src/routes/booking.routes.ts:119-122 | a booking starting inside the requested interval overlaps it but is outside the window |
| Intervals.LongerEarlierIsMissed | backend/src/routes/booking.routes.ts:119-122 | a longer booking started before the window overlaps the request but is outside the window |
| Intervals.ShorterEarlierIsRejected | backend/src/routes/booking.routes.ts:119-122 | a shorter booking that ended before the request starts is inside the window though it does not overlap |
| Intervals.CommitWindowBoundaries | backend/src/routes/booking.routes.ts:120-121 | a booking at the requested start is in the window; one a full requested duration earlier is not |
| Slots.DayWindowFallback | backend/src/routes/booking.routes.ts:246-256 | a weekday without an entry gets the window 540–1080 (09:00–18:00); one with readable entries gets them; unreadable entries give no window |
| Slots.GridShape | backend/src/routes/booking.routes.ts:258-280 | the walk visits ceil((close−from)/30) starts, the k-th being from + 30k |
| Slots.GridMembership | backend/src/routes/booking.routes.ts:258-280 | a minute is visited iff it is at or after opening, a whole number of 30-minute steps from it, and before closing |
| Slots.KeepMembers | backend/src/routes/booking.routes.ts:261-277 | a candidate survives iff it fits before closing and conflicts with no fetched booking; no more survive than were candidates |
| Slots.KeepAscending | backend/src/routes/booking.routes.ts:274-276 | dropping candidates keeps the survivors strictly ascending |
| Slots.SlotStartsCharacterized | backend/src/routes/booking.routes.ts:258-280 | sound and complete: a minute is offered iff it is on the grid, before closing, ends by closing, and conflicts with no fetched booking |
| Slots.SlotStartsByOverlap | backend/src/routes/booking.routes.ts:261-276 | with positive lengths, offered iff on the grid, ends by closing, and overlaps no fetched half-open interval |
| Slots.OfferedStartFits | backend/src/routes/booking.routes.ts:244-276 | for any lengths, an offered start means the weekday has a window, the start is on its grid before closing, the service ends by closing, and no fetched interval overlaps it |
| Slots.SlotsWithinWindow | backend/src/routes/booking.routes.ts:258-261 | every offered start s has open ≤ s and s + duration ≤ close |
| Slots.SlotsOrderedOnGrid | backend/src/routes/booking.routes.ts:258-279 | offered starts ascend strictly, each is open + 30k, and there are at most ceil((close−open)/30) |
| Slots.SlotsEmpty | backend/src/routes/booking.routes.ts:258-261 | a closed or inverted window, or a service longer than the window, offers nothing |
| Slots.ExactFitOffered | backend/src/routes/booking.routes.ts:261 | with nothing booked, a service exactly as long as the window is offered at opening and nowhere else |
| Slots.EveryStepOffered | backend/src/routes/booking.routes.ts:258-279 | with nothing booked, a whole-step window and a service of at most 30 minutes, every grid point open + 30k is offered |
| Slots.DefaultDayScenario | backend/src/routes/booking.routes.ts:247-279 | 09:00–18:00, 30 minutes, nothing booked: 18 slots, first 09:00 (540), last 17:30 (1050) |
| Slots.NeighbourScenario | backend/src/routes/booking.routes.ts:263-272 | a 60-minute service around a booking [10:00, 10:30): 09:30 and 10:00 withheld, 09:00 and 10:30 offered |
| Slots.KeepStep | backend/src/routes/booking.routes.ts:258-280 | one step of the walk: the survivors from a start are that start (if offerable) followed by the survivors from 30 minutes later |
| Slots.Labels | backend/src/routes/booking.routes.ts:275 | one label per offered start, in order, each the HH:mm of that start |
| Slots.GenerateAvailableSlots | backend/src/routes/booking.routes.ts:239-283 | the generator returns the labels of exactly the offered starts of the weekday's window (none when it cannot be read) |
| Slots.WalkGrid | backend/src/routes/booking.routes.ts:252-282 | the loop over the grid emits, in order, the labels of the filtered grid |
| Slots.HasConflict | backend/src/routes/booking.routes.ts:263-272 | `some` over the fetched bookings: true iff the slot conflicts with one of them |
| Database.FirstIndex | backend/src/routes/booking.routes.ts:209-216 | a lookup returns the first position satisfying the condition, and none exactly when no position does |
| Database.FreshId | backend/src/routes/booking.routes.ts:150-158 | a new primary key is above every key in the table |
| Database.FindersAgree | backend/src/routes/booking.routes.ts:99-105 | a lookup by id or email finds a record exactly when one with that key exists, and the found record carries that key |
| BookingRoutes.DayBookingsMembers | backend/src/routes/booking.routes.ts:62-76 | the fetch returns exactly the bookings of that salon, dated within the day, pending or confirmed |
| BookingRoutes.DayBookingsAppend | backend/src/routes/booking.routes.ts:62-76 | the fetch over a concatenation is the concatenation of the fetches, in table order |
| BookingRoutes.BookedIntervals | backend/src/routes/booking.routes.ts:263-265 | each fetched booking becomes [date − day start, + its own service's duration); a booking whose service is gone makes it fail |
| BookingRoutes.AvailableSlotsOutcome | backend/src/routes/booking.routes.ts:41-84 | 404 iff the service, then the salon, is missing; otherwise the generator's answer for the salon's hours, the service's length and the fetched intervals |
| BookingRoutes.SlotQueryAvoidsActiveBookings | backend/src/routes/booking.routes.ts:58-84 | for any lengths, every returned label is the time of a start on the salon's 30-minute grid for that weekday before closing, whose service ends by closing and whose interval overlaps no pending or confirmed booking of the salon that day |
| BookingRoutes.OfferedStartClear | backend/src/routes/booking.routes.ts:58-84 | a start the generator offers for the fetched intervals is on the weekday's grid before closing, ends by closing, and overlaps no fetched booking in absolute minutes |
| BookingRoutes.ClearStartOffered | backend/src/routes/booking.routes.ts:58-84 | with positive lengths, the converse: the query succeeds for an existing service and salon, and the label of every start on the weekday's grid before closing that ends by closing and overlaps no pending or confirmed booking of the salon that day is returned |
| BookingRoutes.ClearIsUnbooked | backend/src/routes/booking.routes.ts:262-265 | a start clear of every fetched booking in absolute minutes is clear of every day-relative fetched interval |
| BookingRoutes.FetchedPositive | backend/src/routes/booking.routes.ts:264-265 | when every service is positive, so is every fetched interval |
| BookingRoutes.FetchedAvoided | backend/src/routes/booking.routes.ts:263-265 | a start clear of every fetched day-relative interval is clear of every fetched booking in absolute minutes |
| BookingRoutes.UnfetchedNeverBlocks | backend/src/routes/booking.routes.ts:62-71 | adding a booking that is inactive, of another salon or of another day leaves the slot answer unchanged |
| BookingRoutes.CancelledScenario | backend/src/routes/booking.routes.ts:69-71 | a cancelled booking at 09:00 does not change the slots offered |
| BookingRoutes.FindOrCreateCustomer | backend/src/routes/booking.routes.ts:132-147 | the user with the email is reused, or exactly one new CLIENT user with the request's contact fields and a fresh id is appended |
| BookingRoutes.Book | backend/src/routes/booking.routes.ts:94-171 | 404 iff the service is missing; 400 iff an active same-salon booking starts in (date − duration, date]; on both nothing changes; on success exactly one CONFIRMED booking with the requested date, salon, service and the service's price is appended |
| BookingRoutes.BookCustomer | backend/src/routes/booking.routes.ts:133-147 | on success the users table is unchanged when the email is known, and grows by one CLIENT with the request's fields, who is the booking's client, when it is not |
| BookingRoutes.CommitBoundaries | backend/src/routes/booking.routes.ts:117-130 | a booking starting exactly at the requested time makes `/book` answer 400; a lone booking starting exactly one duration earlier does not |
| BookingRoutes.BookGuarded | backend/src/routes/booking.routes.ts:107-164 | the corrected `/book`: 400 iff an active same-salon booking overlaps the request, measured by its own service |
| BookingRoutes.GuardedBookKeepsNoDoubleBooking | backend/src/routes/booking.routes.ts:107-164 | with the overlap rule at commit time, no two active bookings of a salon ever overlap |
| BookingRoutes.AsWrittenBookDoubleBooks | backend/src/routes/booking.routes.ts:111-126 | as written, a store with no double booking accepts 10:00+60 beside 10:30+60 and then holds overlapping active bookings |
| BookingRoutes.GuardedRefusesOverlap | backend/src/routes/booking.routes.ts:263-272 | the corrected rule refuses that same request |
| BookingRoutes.UpdateStatus | backend/src/routes/booking.routes.ts:202-236 | 404 with nothing changed unless a booking with the id belongs to a salon the caller owns; otherwise only that booking's status changes, to any value |
| BookingRoutes.DeactivationFreesSlot | backend/src/routes/booking.routes.ts:222-229 | after setting CANCELLED, COMPLETED or NO_SHOW, the day's fetch is what it would be without that booking |
| BookingRoutes.DropInactive | backend/src/routes/booking.routes.ts:58-76 | a booking whose status is no longer PENDING or CONFIRMED drops out of the day's fetch wherever it sits in the table |
| BookingRoutes.DeactivationKeepsNoDoubleBooking | backend/src/routes/booking.routes.ts:222-229 | deactivating a booking never creates a double booking |
| BookingRoutes.ReactivationCanDoubleBook | backend/src/routes/booking.routes.ts:222-229 | with no transition rules, re-confirming a cancelled booking whose time was rebooked double-books the salon |
| BookingRoutes.CustomerKeepsUnique | backend/src/routes/booking.routes.ts:133-147 | the customer step only appends and keeps user ids and emails unique |
| BookingRoutes.BookKeepsValid | backend/src/routes/booking.routes.ts:133-164 | `/book` keeps keys unique and every booking's salon, service and client resolvable |
| BookingRoutes.BookKeepsUniqueKeys | backend/src/routes/booking.routes.ts:133-164 | `/book` keeps every primary key and the email column unique |
| BookingRoutes.BookKeepsReferences | backend/src/routes/booking.routes.ts:133-164 | `/book` keeps every booking's salon, service and client resolvable |
| BookingRoutes.UpdateStatusKeepsValid | backend/src/routes/booking.routes.ts:222-229 | a status update keeps the database's guarantees |

## Findings

| source | as written | input that shows it | evidently intended | confidence | as-written member | corrected member |
|---|---|---|---|---|---|---|
| backend/src/routes/booking.routes.ts:111-126 | `/book` rejects only an active same-salon booking that starts in (date − requested duration, date]. It ignores the existing booking's own length and any booking starting after the requested start. | A salon has a confirmed 60-minute booking at 10:30. A 60-minute request at 10:00 is accepted, and the salon is double-booked. | The overlap rule the slot query applies, with each booking measured by its own service (`BookGuarded`, proved to keep `NoDoubleBooking`). | not executed; high | BookingRoutes.AsWrittenBookDoubleBooks | BookingRoutes.BookGuarded |

The window is also too strict in one case: a shorter booking that ended before
the requested start still blocks it (`Intervals.ShorterEarlierIsRejected`).

## Left out

- Concurrency. `/book` checks, then inserts, as two separate steps, so two
  requests can both pass the check. Each route is modelled as one sequential
  step on the store.
- Date handling. `new Date`, `startOfDay`/`endOfDay`, local-time `setHours`,
  time zones and DST are replaced by integer minutes. A request day is 1440
  minutes, and the weekday is an input instead of `format(..., 'EEEE')`.
- Milliseconds. Times are whole minutes. The day bound `endOfDay` (23:59:59.999)
  becomes "before the next day's first minute".
- Time strings. Only the DD:DD form is read. `Number()` also accepts other
  forms (such as `9:00` or surrounding spaces), and those are not modelled. Any
  other string is treated like an invalid date: no slots.
- Malformed working hours. An entry without an `open` or `close` field throws,
  and the request fails with 500. This is not modelled.
- The caller. The caller's identity comes from the authentication middleware
  (`backend/src/middleware/auth.ts`), which is not part of this model. It is a
  parameter of `UpdateStatus`.
- Unknown or missing status values. Prisma rejects a value outside the enum
  with a 500. A body without `status` writes nothing and answers 200, because
  Prisma ignores `undefined` data fields (lines 205 and 222-224).
  `UpdateStatus` takes a valid `Status`.
- Guest accounts. A guest customer's `authId` is `guest_<timestamp>`. It reads
  the clock, and two guests created in the same millisecond collide. This is
  not modelled.
- Request validation. `/book` takes every field as given. A missing email or
  service id makes its lookup throw (500). A missing `salonId` drops that
  filter, because Prisma ignores `undefined` filter fields: the commit check at
  lines 111-126 then looks at active bookings of every salon and can answer
  400; otherwise the guest customer is created (lines 137-146) and only then
  does the insert at lines 150-158 fail with 500. `BookRequest` holds
  present, well-typed fields, so none of this is modelled.
- Plumbing. Express and Prisma plumbing is out of scope: JSON shaping, `include`
  joins, the catch-all 500 handlers, the salon-by-code route (lines 10-33) and
  the owner's booking list (lines 174-200).
- Service ownership. Neither the slot query nor `/book` checks that the service
  belongs to the requested salon. The model keeps that behaviour.
- Other routes. `service.routes.ts` is thin CRUD (its soft delete is one field
  write). Also out: `auth.routes.ts` (its salon code uses `Math.random`),
  `supabase.ts`, `server.ts` and the frontend pages.
- Ids. The database generates unique string keys. The model uses naturals,
  and a fresh key is one above every key in the table (`FreshId`); only
  uniqueness is relied on, so `Book`'s "above every existing id" is a
  property of this stand-in, not of the program.
- Prices. `price` and `totalAmount` are copied as opaque values and never
  computed with.
- BookingRoutes.ClearStartOffered: this lemma assumes every service has a
  positive duration. The code does not check durations, and with a zero length
  the three-clause test blocks more than overlap does
  (`Intervals.ZeroDurationBookingBlocks`), so a clear start can be withheld.
- Slots.SlotStartsByOverlap: this lemma assumes positive durations, for the
  same reason.

=== FILE: clock.dfy ===
/**
  Wall-clock labels. The booking routes read a salon's opening and closing
  times as "HH:mm" strings (split at ':' and converted to numbers, then applied
  with setHours) and emit offered slots as "HH:mm" labels (date-fns' format).
  Here a time of day is an integer count of minutes since midnight.
 */
module Clock {
  import opened Results

  const MinutesPerHour := 60
  const HoursPerDay := 24
  const MinutesPerDay := 1440

  predicate IsDigit(c: char) {
    '0' <= c <= '9'
  }

  function DigitValue(c: char): (d: nat)
    requires IsDigit(c)
    ensures d < 10
  {
    c as int - '0' as int
  }

  function DigitChar(d: nat): (c: char)
    requires d < 10
    ensures IsDigit(c) && DigitValue(c) == d
  {
    ('0' as int + d) as char
  }

  /** Two zero-padded decimal digits, as "HH" and "mm" print them. */
  function TwoDigits(n: nat): (s: string)
    requires n < 100
    ensures |s| == 2 && IsDigit(s[0]) && IsDigit(s[1])
    ensures DigitValue(s[0]) * 10 + DigitValue(s[1]) == n
  {
    [DigitChar(n / 10), DigitChar(n % 10)]
  }

  /** The "HH:mm" label of a minute offset from midnight; offsets outside the
      day roll over into the neighbouring day, as a Date does. */
  function Label(m: int): (s: string)
    ensures |s| == 5 && s[2] == ':'
  {
    TwoDigits((m / MinutesPerHour) % HoursPerDay) + ":" + TwoDigits(m % MinutesPerHour)
  }

  /** A string of the shape DD:DD. */
  predicate ClockShaped(s: string) {
    |s| == 5 && IsDigit(s[0]) && IsDigit(s[1]) && s[2] == ':' && IsDigit(s[3]) && IsDigit(s[4])
  }

  function HourField(s: string): nat
    requires ClockShaped(s)
  {
    DigitValue(s[0]) * 10 + DigitValue(s[1])
  }

  function MinuteField(s: string): nat
    requires ClockShaped(s)
  {
    DigitValue(s[3]) * 10 + DigitValue(s[4])
  }

  /** A DD:DD string whose fields name a real time of day. */
  predicate Canonical(s: string) {
    ClockShaped(s) && HourField(s) < HoursPerDay && MinuteField(s) < MinutesPerHour
  }

  /** Reads an opening or closing time: the hour and minute fields are applied
      to midnight, so out-of-range fields roll over (setHours(9, 75) is 10:15).
      A string that is not DD:DD gives no time. */
  function ParseClock(s: string): (r: Option<nat>)
    ensures r.Some? <==> ClockShaped(s)
    ensures r.Some? ==> r.value <= 99 * MinutesPerHour + 99
  {
    if ClockShaped(s) then Some(HourField(s) * MinutesPerHour + MinuteField(s)) else None
  }

  /** Formatting then parsing gives back the time of day. */
  lemma ParseLabel(m: int)
    ensures ParseClock(Label(m)) == Some(m % MinutesPerDay)
    ensures Canonical(Label(m))
  {
    var s := Label(m);
    var q := m / MinutesPerHour;
    var h := q % HoursPerDay;
    assert HourField(s) == h;
    assert MinuteField(s) == m % MinutesPerHour;
    assert m == MinutesPerDay * (q / HoursPerDay) + (h * MinutesPerHour + m % MinutesPerHour);
    DayRemainder(m, q / HoursPerDay, h * MinutesPerHour + m % MinutesPerHour);
  }

  lemma DayRemainder(m: int, days: int, rest: int)
    requires 0 <= rest < MinutesPerDay && m == MinutesPerDay * days + rest
    ensures m % MinutesPerDay == rest
  {
  }

  /** Parsing then formatting gives back a canonical label. */
  lemma LabelParse(s: string)
    requires Canonical(s)
    ensures Label(ParseClock(s).value) == s
  {
  }

  /** Different times of the same day have different labels. */
  lemma LabelInjective(m1: int, m2: int)
    requires 0 <= m1 < MinutesPerDay && 0 <= m2 && m2 < MinutesPerDay && m1 != m2
    ensures Label(m1) != Label(m2)
  {
    ParseLabel(m1);
    ParseLabel(m2);
  }
}

=== FILE: database.dfy ===
/**
  The persisted records the booking routes read and write, as immutable
  values, and the lookups the routes perform on them. The database is a
  record of four tables; each table is a sequence in insertion order.
 */
module Database {
  import opened Results
  import opened Intervals
  import opened Slots

  type Id = nat

  datatype Role = Client | SalonOwner

  datatype Status = Pending | Confirmed | Completed | Cancelled | NoShow

  /** Only pending and confirmed bookings hold their time. */
  predicate IsActive(s: Status) {
    s == Pending || s == Confirmed
  }

  datatype Salon = Salon(id: Id, ownerId: Id, hours: WorkingHours)

  /** The price is copied onto bookings, never computed with. */
  datatype Service = Service(id: Id, salonId: Id, duration: int, price: real, active: bool)

  datatype User = User(id: Id, email: string, name: string, phone: string, role: Role)

  /** `date` is the booked start, in minutes. */
  datatype Booking = Booking(id: Id, salonId: Id, serviceId: Id, clientId: Id, date: int, status: Status, totalAmount: real)

  datatype Store = Store(salons: seq<Salon>, services: seq<Service>, users: seq<User>, bookings: seq<Booking>)

  /** The first position whose element satisfies `p`: what findFirst and
      findUnique return. */
  function FirstIndex<T>(xs: seq<T>, p: T -> bool): (r: Option<nat>)
    ensures r.Some? ==> r.value < |xs| && p(xs[r.value])
    ensures r.Some? ==> forall j :: 0 <= j < r.value ==> !p(xs[j])
    ensures r.None? <==> forall j :: 0 <= j < |xs| ==> !p(xs[j])
  {
    if xs == [] then None
    else if p(xs[0]) then Some(0)
    else
      match FirstIndex(xs[1..], p)
      case None => None
      case Some(k) => Some(k + 1)
  }

  /** A value above every id in the table, as a fresh primary key. */
  function FreshId<T>(xs: seq<T>, id: T -> Id): (next: Id)
    ensures forall i :: 0 <= i < |xs| ==> id(xs[i]) < next
  {
    if xs == [] then 0
    else
      var rest := FreshId(xs[1..], id);
      assert forall i :: 1 <= i < |xs| ==> id(xs[i]) == id(xs[1..][i - 1]);
      if id(xs[0]) < rest then rest else id(xs[0]) + 1
  }

  function FindService(services: seq<Service>, id: Id): Option<Service> {
    match FirstIndex(services, (s: Service) => s.id == id)
    case None => None
    case Some(k) => Some(services[k])
  }

  function FindSalon(salons: seq<Salon>, id: Id): Option<Salon> {
    match FirstIndex(salons, (s: Salon) => s.id == id)
    case None => None
    case Some(k) => Some(salons[k])
  }

  function FindUserByEmail(users: seq<User>, email: string): Option<User> {
    match FirstIndex(users, (u: User) => u.email == email)
    case None => None
    case Some(k) => Some(users[k])
  }

  predicate HasService(services: seq<Service>, id: Id) {
    exists k :: 0 <= k < |services| && services[k].id == id
  }

  predicate HasSalon(salons: seq<Salon>, id: Id) {
    exists k :: 0 <= k < |salons| && salons[k].id == id
  }

  predicate HasUser(users: seq<User>, id: Id) {
    exists k :: 0 <= k < |users| && users[k].id == id
  }

  /** A lookup by id finds a record with that id exactly when one exists. */
  lemma FindersAgree(store: Store, serviceId: Id, salonId: Id, email: string)
    ensures FindService(store.services, serviceId).Some? <==> HasService(store.services, serviceId)
    ensures FindService(store.services, serviceId).Some? ==> FindService(store.services, serviceId).value.id == serviceId
    ensures FindService(store.services, serviceId).Some? ==> FindService(store.services, serviceId).value in store.services
    ensures FindSalon(store.salons, salonId).Some? <==> HasSalon(store.salons, salonId)
    ensures FindSalon(store.salons, salonId).Some? ==> FindSalon(store.salons, salonId).value.id == salonId
    ensures FindUserByEmail(store.users, email).Some? <==> exists k :: 0 <= k < |store.users| && store.users[k].email == email
    ensures FindUserByEmail(store.users, email).Some? ==> FindUserByEmail(store.users, email).value in store.users
    ensures FindUserByEmail(store.users, email).Some? ==> FindUserByEmail(store.users, email).value.email == email
  {
  }

  /** The length a booking occupies: that of its own service. A booking
      whose service cannot be found occupies nothing. */
  function DurationOf(services: seq<Service>, serviceId: Id): int {
    match FindService(services, serviceId)
    case None => 0
    case Some(s) => s.duration
  }

  /** The interval a stored booking occupies. */
  function BookingInterval(services: seq<Service>, b: Booking): Interval {
    Interval(b.date, DurationOf(services, b.serviceId))
  }

  /** Primary keys and the email column are unique. */
  predicate UniqueKeys(store: Store) {
    && (forall i, j :: 0 <= i < j < |store.salons| ==> store.salons[i].id != store.salons[j].id)
    && (forall i, j :: 0 <= i < j < |store.services| ==> store.services[i].id != store.services[j].id)
    && (forall i, j :: 0 <= i < j < |store.users| ==> store.users[i].id != store.users[j].id)
    && (forall i, j :: 0 <= i < j < |store.users| ==> store.users[i].email != store.users[j].email)
    && (forall i, j :: 0 <= i < j < |store.bookings| ==> store.bookings[i].id != store.bookings[j].id)
  }

  /** Every booking refers to an existing salon, service and user. */
  predicate ReferencesExist(store: Store) {
    && (forall i :: 0 <= i < |store.bookings| ==> HasSalon(store.salons, store.bookings[i].salonId))
    && (forall i :: 0 <= i < |store.bookings| ==> HasService(store.services, store.bookings[i].serviceId))
    && (forall i :: 0 <= i < |store.bookings| ==> HasUser(store.users, store.bookings[i].clientId))
  }

  /** What the database guarantees of every state. */
  predicate Valid(store: Store) {
    UniqueKeys(store) && ReferencesExist(store)
  }
}

=== FILE: intervals.dfy ===
/**
  Booked time as half-open minute intervals, and the two conflict rules the
  booking routes use: the three-clause test that filters offered slots, and
  the start-window test that gates a new booking.
 */
module Intervals {

  /** The minutes [start, start + duration). */
  datatype Interval = Interval(start: int, duration: int) {
    function End(): int {
      start + duration
    }
  }

  /** Half-open overlap: neither interval ends at or before the other starts. */
  predicate Overlaps(a: Interval, b: Interval) {
    a.start < b.End() && b.start < a.End()
  }

  /** The display-time test of a candidate slot against one fetched booking:
      the slot starts inside the booking, or ends inside it, or covers it. */
  predicate SlotConflict(slot: Interval, booking: Interval) {
    var s, e := slot.start, slot.End();
    var bs, be := booking.start, booking.End();
    || (s >= bs && s < be)
    || (e > bs && e <= be)
    || (s <= bs && e >= be)
  }

  /** `some` over the fetched bookings. */
  predicate ConflictsWithAny(slot: Interval, booked: seq<Interval>) {
    exists i :: 0 <= i < |booked| && SlotConflict(slot, booked[i])
  }

  predicate OverlapsAny(slot: Interval, booked: seq<Interval>) {
    exists i :: 0 <= i < |booked| && Overlaps(slot, booked[i])
  }

  predicate AllPositive(booked: seq<Interval>) {
    forall i :: 0 <= i < |booked| ==> booked[i].duration > 0
  }

  /** With positive durations the three clauses say exactly "overlaps". */
  lemma SlotConflictIsOverlap(slot: Interval, booking: Interval)
    requires slot.duration > 0 && booking.duration > 0
    ensures SlotConflict(slot, booking) <==> Overlaps(slot, booking)
  {
  }

  /** Overlap always trips the three clauses, whatever the lengths: the
      display-time test never lets an overlapping slot through. */
  lemma OverlapImpliesConflict(slot: Interval, booking: Interval)
    ensures Overlaps(slot, booking) ==> SlotConflict(slot, booking)
  {
  }

  /** Lifted to the whole fetched list. */
  lemma ConflictsWithAnyIsOverlapsAny(slot: Interval, booked: seq<Interval>)
    requires slot.duration > 0 && AllPositive(booked)
    ensures ConflictsWithAny(slot, booked) <==> OverlapsAny(slot, booked)
  {
  }

  /** Back-to-back intervals do not conflict under either rule. */
  lemma BackToBackIsFree(first: Interval, second: Interval)
    requires first.duration > 0 && second.duration > 0
    requires first.End() == second.start
    ensures !Overlaps(first, second) && !Overlaps(second, first)
    ensures !SlotConflict(first, second) && !SlotConflict(second, first)
  {
  }

  /** A zero-minute booking is blocked by the three clauses (the slot covers
      it) although no minute is shared, so positivity is needed above. */
  lemma ZeroDurationBookingBlocks()
    ensures SlotConflict(Interval(600, 30), Interval(600, 0))
    ensures !Overlaps(Interval(600, 30), Interval(600, 0))
  {
  }

  /** The commit-time rule: an existing booking blocks a request when it starts
      in (start - requested duration, start]; its own length is not consulted. */
  predicate InCommitWindow(existingStart: int, request: Interval) {
    request.start - request.duration < existingStart <= request.start
  }

  /** A booking in the window overlaps the request when it is at least as long. */
  lemma CommitWindowSound(existing: Interval, request: Interval)
    requires request.duration > 0 && existing.duration >= request.duration
    requires InCommitWindow(existing.start, request)
    ensures Overlaps(request, existing)
  {
  }

  /** An overlapping booking that starts no later than the request is in the
      window when it is no longer than the request. */
  lemma CommitWindowComplete(existing: Interval, request: Interval)
    requires existing.duration <= request.duration
    requires existing.start <= request.start && Overlaps(request, existing)
    ensures InCommitWindow(existing.start, request)
  {
  }

  /** For equal positive durations the window is exactly "overlaps and starts
      no later". */
  lemma CommitWindowExactForEqualDurations(existing: Interval, request: Interval)
    requires request.duration > 0 && existing.duration == request.duration
    ensures InCommitWindow(existing.start, request)
        <==> existing.start <= request.start && Overlaps(request, existing)
  {
  }

  /** Missed conflict: a booking that starts inside the requested interval. */
  lemma LaterStartIsMissed()
    ensures Overlaps(Interval(600, 60), Interval(630, 60))
    ensures !InCommitWindow(630, Interval(600, 60))
  {
  }

  /** Missed conflict: a longer booking that started before the window. */
  lemma LongerEarlierIsMissed()
    ensures Overlaps(Interval(600, 30), Interval(540, 120))
    ensures !InCommitWindow(540, Interval(600, 30))
  {
  }

  /** False rejection: a shorter booking that ended before the request starts. */
  lemma ShorterEarlierIsRejected()
    ensures !Overlaps(Interval(560, 30), Interval(540, 10))
    ensures InCommitWindow(540, Interval(560, 30))
  {
  }

  /** The window's two boundaries. */
  lemma CommitWindowBoundaries(request: Interval)
    requires request.duration > 0
    ensures InCommitWindow(request.start, request)
    ensures !InCommitWindow(request.start - request.duration, request)
  {
  }
}

=== FILE: results.dfy ===
/** Optional values and route results. */
module Results {

  datatype Option<T> = None | Some(value: T)

  /** The error responses of the booking routes. */
  datatype Error =
    | ServiceNotFound   // 404 "Service not found"
    | SalonNotFound     // 404 "Salon not found"
    | SlotUnavailable   // 400 "This slot is no longer available"
    | BookingNotFound   // 404 "Booking not found"
    | ServerError       // 500, a failed database call

  datatype Result<T> = Ok(value: T) | Err(error: Error)
}

=== FILE: routes.dfy ===
/**
  The three booking routes that carry logic: the slot query, booking creation
  with its commit-time conflict check and customer find-or-create, and the
  owner's status update. Each route is a function from the store (and the
  request) to its response and the store after it.
 */
module BookingRoutes {
  import opened Results
  import opened Clock
  import opened Intervals
  import opened Slots
  import opened Database

  // ---------------------------------------------------------------------
  // Slot query
  // ---------------------------------------------------------------------

  /** A request day `day` covers the minutes [day * 1440, day * 1440 + 1440). */
  function DayStart(day: int): int {
    day * MinutesPerDay
  }

  predicate OnDay(date: int, day: int) {
    DayStart(day) <= date < DayStart(day) + MinutesPerDay
  }

  /** The fetch filter: same salon, dated within the day, pending or confirmed. */
  predicate FetchedFor(b: Booking, salonId: Id, day: int) {
    b.salonId == salonId && OnDay(b.date, day) && IsActive(b.status)
  }

  function DayBookings(bookings: seq<Booking>, salonId: Id, day: int): seq<Booking> {
    if bookings == [] then []
    else (if FetchedFor(bookings[0], salonId, day) then [bookings[0]] else [])
         + DayBookings(bookings[1..], salonId, day)
  }

  /** The fetch returns exactly the bookings of that salon and day that are
      pending or confirmed; cancelled, completed and no-show ones never. */
  lemma {:induction false} DayBookingsMembers(bookings: seq<Booking>, salonId: Id, day: int)
    ensures forall b :: b in DayBookings(bookings, salonId, day) <==> b in bookings && FetchedFor(b, salonId, day)
  {
    if bookings != [] {
      DayBookingsMembers(bookings[1..], salonId, day);
      assert bookings == [bookings[0]] + bookings[1..];
    }
  }

  lemma {:induction false} DayBookingsAppend(a: seq<Booking>, b: seq<Booking>, salonId: Id, day: int)
    ensures DayBookings(a + b, salonId, day) == DayBookings(a, salonId, day) + DayBookings(b, salonId, day)
  {
    if a != [] {
      DayBookingsAppend(a[1..], b, salonId, day);
      assert (a + b)[1..] == a[1..] + b;
    } else {
      assert a + b == b;
    }
  }

  /** Each fetched booking measured by its own service, shifted to minutes of
      the requested day. Reading the duration of a booking whose service is
      gone fails. */
  function BookedIntervals(fetched: seq<Booking>, services: seq<Service>, dayStart: int): (r: Option<seq<Interval>>)
    ensures r.Some? ==> |r.value| == |fetched|
    ensures r.Some? ==> forall i :: 0 <= i < |fetched| ==>
      HasService(services, fetched[i].serviceId)
      && r.value[i] == Interval(fetched[i].date - dayStart, DurationOf(services, fetched[i].serviceId))
    ensures r.None? <==> exists i :: 0 <= i < |fetched| && !HasService(services, fetched[i].serviceId)
  {
    if fetched == [] then Some([])
    else
      var b := fetched[0];
      var tail := BookedIntervals(fetched[1..], services, dayStart);
      FindersAgree(Store([], services, [], []), b.serviceId, 0, "");
      assert forall i :: 1 <= i < |fetched| ==> fetched[i] == fetched[1..][i - 1];
      match FindService(services, b.serviceId)
      case None => None
      case Some(s) =>
        match tail
        case None => None
        case Some(rest) => Some([Interval(b.date - dayStart, s.duration)] + rest)
  }

  /** POST /available-slots: service, then salon, then the day's bookings,
      then the generator. */
  function AvailableSlots(store: Store, salonId: Id, serviceId: Id, day: int, weekday: Weekday): Result<seq<string>> {
    match FindService(store.services, serviceId)
    case None => Err(ServiceNotFound)
    case Some(service) =>
      match FindSalon(store.salons, salonId)
      case None => Err(SalonNotFound)
      case Some(salon) =>
        match BookedIntervals(DayBookings(store.bookings, salonId, day), store.services, DayStart(day))
        case None => Err(ServerError)
        case Some(booked) => Ok(Labels(OfferedStarts(salon.hours, weekday, service.duration, booked)))
  }

  /** The query's outcome in terms of the store: 404s when the service or the
      salon is missing, and otherwise the generator's answer for the salon's
      hours, the service's length and the fetched bookings' own intervals. */
  lemma AvailableSlotsOutcome(store: Store, salonId: Id, serviceId: Id, day: int, weekday: Weekday)
    requires Valid(store)
    ensures AvailableSlots(store, salonId, serviceId, day, weekday) == Err(ServiceNotFound)
        <==> !HasService(store.services, serviceId)
    ensures AvailableSlots(store, salonId, serviceId, day, weekday) == Err(SalonNotFound)
        <==> HasService(store.services, serviceId) && !HasSalon(store.salons, salonId)
    ensures HasService(store.services, serviceId) && HasSalon(store.salons, salonId) ==>
      && BookedIntervals(DayBookings(store.bookings, salonId, day), store.services, DayStart(day)).Some?
      && AvailableSlots(store, salonId, serviceId, day, weekday)
         == Ok(Labels(OfferedStarts(FindSalon(store.salons, salonId).value.hours, weekday,
                                    DurationOf(store.services, serviceId),
                                    BookedIntervals(DayBookings(store.bookings, salonId, day), store.services, DayStart(day)).value)))
  {
    FindersAgree(store, serviceId, salonId, "");
    var fetched := DayBookings(store.bookings, salonId, day);
    DayBookingsMembers(store.bookings, salonId, day);
    forall i | 0 <= i < |fetched|
      ensures HasService(store.services, fetched[i].serviceId)
    {
      assert fetched[i] in store.bookings;
    }
  }

  /** Start `x` (minutes after midnight) lies on the salon's 30-minute grid
      for the weekday before closing, the service ends by closing, and its
      interval on the requested day overlaps no pending or confirmed booking
      of the salon that day, each booking measured by its own service. */
  predicate ClearStart(store: Store, salonId: Id, serviceId: Id, day: int, weekday: Weekday, x: int)
    requires HasSalon(store.salons, salonId)
  {
    var w := DayWindow(FindSalon(store.salons, salonId).value.hours, weekday);
    var d := DurationOf(store.services, serviceId);
    && w.Some? && OnGrid(w.value.open, x) && x < w.value.close && x + d <= w.value.close
    && forall j :: 0 <= j < |store.bookings| && FetchedFor(store.bookings[j], salonId, day) ==>
         !Overlaps(Interval(DayStart(day) + x, d), BookingInterval(store.services, store.bookings[j]))
  }

  /** End to end, whatever the service lengths: every label the query
      returns is the time of a clear start. */
  lemma SlotQueryAvoidsActiveBookings(store: Store, salonId: Id, serviceId: Id, day: int, weekday: Weekday)
    ensures AvailableSlots(store, salonId, serviceId, day, weekday).Ok? ==>
      && HasSalon(store.salons, salonId)
      && var labels := AvailableSlots(store, salonId, serviceId, day, weekday).value;
         forall i :: 0 <= i < |labels| ==>
           exists x :: labels[i] == Label(x) && ClearStart(store, salonId, serviceId, day, weekday, x)
  {
    var r := AvailableSlots(store, salonId, serviceId, day, weekday);
    if r.Ok? {
      FindersAgree(store, serviceId, salonId, "");
      var salon := FindSalon(store.salons, salonId).value;
      var d := DurationOf(store.services, serviceId);
      var booked := BookedIntervals(DayBookings(store.bookings, salonId, day), store.services, DayStart(day)).value;
      var starts := OfferedStarts(salon.hours, weekday, d, booked);
      assert r.value == Labels(starts);
      forall i | 0 <= i < |r.value|
        ensures exists x :: r.value[i] == Label(x) && ClearStart(store, salonId, serviceId, day, weekday, x)
      {
        var x := starts[i];
        OfferedStartClear(store, salonId, serviceId, day, weekday, x);
        assert r.value[i] == Label(x);
      }
    }
  }

  /** A start the generator offers for the fetched bookings is clear. */
  lemma OfferedStartClear(store: Store, salonId: Id, serviceId: Id, day: int, weekday: Weekday, x: int)
    requires HasSalon(store.salons, salonId)
    requires BookedIntervals(DayBookings(store.bookings, salonId, day), store.services, DayStart(day)).Some?
    requires x in OfferedStarts(FindSalon(store.salons, salonId).value.hours, weekday, DurationOf(store.services, serviceId),
                                BookedIntervals(DayBookings(store.bookings, salonId, day), store.services, DayStart(day)).value)
    ensures ClearStart(store, salonId, serviceId, day, weekday, x)
  {
    var d := DurationOf(store.services, serviceId);
    var booked := BookedIntervals(DayBookings(store.bookings, salonId, day), store.services, DayStart(day)).value;
    OfferedStartFits(FindSalon(store.salons, salonId).value.hours, weekday, d, booked, x);
    FetchedAvoided(store, salonId, day, d, x);
  }

  /** End to end, the converse, with positive service lengths: the label of
      every clear start is among those the query returns. */
  lemma ClearStartOffered(store: Store, salonId: Id, serviceId: Id, day: int, weekday: Weekday, x: int)
    requires Valid(store)
    requires forall k :: 0 <= k < |store.services| ==> store.services[k].duration > 0
    requires HasService(store.services, serviceId) && HasSalon(store.salons, salonId)
    requires ClearStart(store, salonId, serviceId, day, weekday, x)
    ensures AvailableSlots(store, salonId, serviceId, day, weekday).Ok?
    ensures Label(x) in AvailableSlots(store, salonId, serviceId, day, weekday).value
  {
    FindersAgree(store, serviceId, salonId, "");
    AvailableSlotsOutcome(store, salonId, serviceId, day, weekday);
    var salon := FindSalon(store.salons, salonId).value;
    var d := DurationOf(store.services, serviceId);
    var booked := BookedIntervals(DayBookings(store.bookings, salonId, day), store.services, DayStart(day)).value;
    var w := DayWindow(salon.hours, weekday).value;
    FetchedPositive(store, salonId, day);
    ClearIsUnbooked(store, salonId, serviceId, day, weekday, x);
    SlotStartsByOverlap(w, d, booked, x);
    var starts := OfferedStarts(salon.hours, weekday, d, booked);
    var k :| 0 <= k < |starts| && starts[k] == x;
    assert Labels(starts)[k] == Label(x);
  }

  /** Every fetched booking's interval is positive when every service is. */
  lemma FetchedPositive(store: Store, salonId: Id, day: int)
    requires forall k :: 0 <= k < |store.services| ==> store.services[k].duration > 0
    requires BookedIntervals(DayBookings(store.bookings, salonId, day), store.services, DayStart(day)).Some?
    ensures AllPositive(BookedIntervals(DayBookings(store.bookings, salonId, day), store.services, DayStart(day)).value)
  {
    var fetched := DayBookings(store.bookings, salonId, day);
    var booked := BookedIntervals(fetched, store.services, DayStart(day)).value;
    forall m | 0 <= m < |booked|
      ensures booked[m].duration > 0
    {
      FindersAgree(store, fetched[m].serviceId, salonId, "");
    }
  }

  /** A clear start, shifted to minutes of the day, overlaps no fetched
      interval: the converse of `FetchedAvoided`. */
  lemma ClearIsUnbooked(store: Store, salonId: Id, serviceId: Id, day: int, weekday: Weekday, x: int)
    requires HasSalon(store.salons, salonId)
    requires ClearStart(store, salonId, serviceId, day, weekday, x)
    requires BookedIntervals(DayBookings(store.bookings, salonId, day), store.services, DayStart(day)).Some?
    ensures !OverlapsAny(Interval(x, DurationOf(store.services, serviceId)),
                         BookedIntervals(DayBookings(store.bookings, salonId, day), store.services, DayStart(day)).value)
  {
    var d := DurationOf(store.services, serviceId);
    var fetched := DayBookings(store.bookings, salonId, day);
    var booked := BookedIntervals(fetched, store.services, DayStart(day)).value;
    DayBookingsMembers(store.bookings, salonId, day);
    forall m | 0 <= m < |booked|
      ensures !Overlaps(Interval(x, d), booked[m])
    {
      assert fetched[m] in fetched;
      var j :| 0 <= j < |store.bookings| && store.bookings[j] == fetched[m];
      assert !Overlaps(Interval(DayStart(day) + x, d), BookingInterval(store.services, store.bookings[j]));
    }
  }

  /** A start clear of every fetched interval, shifted back to absolute
      minutes, is clear of every fetched booking. */
  lemma FetchedAvoided(store: Store, salonId: Id, day: int, d: int, x: int)
    requires BookedIntervals(DayBookings(store.bookings, salonId, day), store.services, DayStart(day)).Some?
    requires !OverlapsAny(Interval(x, d), BookedIntervals(DayBookings(store.bookings, salonId, day), store.services, DayStart(day)).value)
    ensures forall j :: 0 <= j < |store.bookings| && FetchedFor(store.bookings[j], salonId, day) ==>
      !Overlaps(Interval(DayStart(day) + x, d), BookingInterval(store.services, store.bookings[j]))
  {
    var fetched := DayBookings(store.bookings, salonId, day);
    var booked := BookedIntervals(fetched, store.services, DayStart(day)).value;
    DayBookingsMembers(store.bookings, salonId, day);
    forall j | 0 <= j < |store.bookings| && FetchedFor(store.bookings[j], salonId, day)
      ensures !Overlaps(Interval(DayStart(day) + x, d), BookingInterval(store.services, store.bookings[j]))
    {
      assert store.bookings[j] in fetched;
      var m :| 0 <= m < |fetched| && fetched[m] == store.bookings[j];
      assert !Overlaps(Interval(x, d), booked[m]);
    }
  }

  /** A booking the fetch leaves out (inactive, another salon, another day)
      never changes the slots offered. */
  lemma UnfetchedNeverBlocks(store: Store, b: Booking, salonId: Id, serviceId: Id, day: int, weekday: Weekday)
    requires !FetchedFor(b, salonId, day)
    ensures AvailableSlots(store.(bookings := store.bookings + [b]), salonId, serviceId, day, weekday)
         == AvailableSlots(store, salonId, serviceId, day, weekday)
  {
    DayBookingsAppend(store.bookings, [b], salonId, day);
    assert DayBookings([b], salonId, day) == [];
    assert DayBookings(store.bookings, salonId, day) + [] == DayBookings(store.bookings, salonId, day);
  }

  /** A cancelled booking at 09:00 leaves 09:00 free. */
  lemma CancelledScenario(store: Store, b: Booking, salonId: Id, serviceId: Id, day: int, weekday: Weekday)
    requires b.salonId == salonId && b.date == DayStart(day) + 540 && b.status == Cancelled
    ensures AvailableSlots(store.(bookings := store.bookings + [b]), salonId, serviceId, day, weekday)
         == AvailableSlots(store, salonId, serviceId, day, weekday)
  {
    UnfetchedNeverBlocks(store, b, salonId, serviceId, day, weekday);
  }

  // ---------------------------------------------------------------------
  // Booking creation
  // ---------------------------------------------------------------------

  datatype BookRequest = BookRequest(
    salonId: Id, serviceId: Id, date: int,
    customerName: string, customerEmail: string, customerPhone: string)

  /** A route's response together with the store it leaves behind. */
  datatype Outcome = Outcome(result: Result<Booking>, store: Store)

  /** The commit-time rule as written: a pending or confirmed booking of the
      same salon that starts in (date - requested duration, date]. */
  predicate CommitBlocks(b: Booking, salonId: Id, request: Interval) {
    b.salonId == salonId && IsActive(b.status) && InCommitWindow(b.date, request)
  }

  /** The existing customer with this email, or a new client record appended. */
  function FindOrCreateCustomer(users: seq<User>, name: string, email: string, phone: string): (r: (User, seq<User>))
    ensures r.0.email == email && r.0 in r.1
    ensures (exists k :: 0 <= k < |users| && users[k].email == email) ==> r.1 == users && r.0 in users
    ensures (forall k :: 0 <= k < |users| ==> users[k].email != email) ==>
      && r.1 == users + [r.0]
      && r.0 == User(r.0.id, email, name, phone, Client)
      && forall k :: 0 <= k < |users| ==> users[k].id < r.0.id
  {
    FindersAgree(Store([], [], users, []), 0, 0, email);
    match FindUserByEmail(users, email)
    case Some(u) => (u, users)
    case None =>
      var u := User(FreshId(users, (u: User) => u.id), email, name, phone, Client);
      (u, users + [u])
  }

  /** POST /book as written. */
  function Book(store: Store, req: BookRequest): (o: Outcome)
    // 404 when the service is missing, and nothing is written
    ensures !HasService(store.services, req.serviceId) <==> o.result == Err(ServiceNotFound)
    ensures o.result == Err(ServiceNotFound) ==> o.store == store
    // 400 exactly when a same-salon active booking starts in the window
    ensures HasService(store.services, req.serviceId) ==>
      (o.result == Err(SlotUnavailable)
       <==> exists i :: 0 <= i < |store.bookings|
              && CommitBlocks(store.bookings[i], req.salonId, Interval(req.date, DurationOf(store.services, req.serviceId))))
    ensures o.result == Err(SlotUnavailable) ==> o.store == store
    // the other outcomes: a booking, or a failed write after the customer step
    ensures o.result.Err? ==> o.result.error in {ServiceNotFound, SlotUnavailable, ServerError}
    ensures o.result.Ok? || o.result == Err(ServerError) ==>
      && o.store.salons == store.salons && o.store.services == store.services
      && FindOrCreateCustomer(store.users, req.customerName, req.customerEmail, req.customerPhone).1 == o.store.users
    ensures o.result == Err(ServerError) ==> !HasSalon(store.salons, req.salonId) && o.store.bookings == store.bookings
    // a success appends exactly one confirmed booking for the request
    ensures o.result.Ok? ==>
      && HasSalon(store.salons, req.salonId)
      && o.store.bookings == store.bookings + [o.result.value]
      && o.result.value.status == Confirmed
      && o.result.value.date == req.date
      && o.result.value.salonId == req.salonId
      && o.result.value.serviceId == req.serviceId
      && o.result.value.totalAmount == FindService(store.services, req.serviceId).value.price
      && (forall i :: 0 <= i < |store.bookings| ==> store.bookings[i].id < o.result.value.id)
      && exists k :: 0 <= k < |o.store.users| && o.store.users[k].id == o.result.value.clientId
                     && o.store.users[k].email == req.customerEmail
  {
    FindersAgree(store, req.serviceId, req.salonId, req.customerEmail);
    match FindService(store.services, req.serviceId)
    case None => Outcome(Err(ServiceNotFound), store)
    case Some(service) =>
      var request := Interval(req.date, service.duration);
      if FirstIndex(store.bookings, (b: Booking) => CommitBlocks(b, req.salonId, request)).Some? then
        Outcome(Err(SlotUnavailable), store)
      else
        var (user, users) := FindOrCreateCustomer(store.users, req.customerName, req.customerEmail, req.customerPhone);
        var withUser := store.(users := users);
        if FindSalon(store.salons, req.salonId).None? then
          // the insert violates the salon reference; the customer stays
          Outcome(Err(ServerError), withUser)
        else
          var booking := Booking(FreshId(store.bookings, (b: Booking) => b.id), req.salonId, service.id,
                                 user.id, req.date, Confirmed, service.price);
          Outcome(Ok(booking), withUser.(bookings := store.bookings + [booking]))
  }

  /** The customer step reuses an existing account or creates exactly one
      client account, with the request's contact fields. */
  lemma BookCustomer(store: Store, req: BookRequest)
    requires Book(store, req).result.Ok?
    ensures (exists k :: 0 <= k < |store.users| && store.users[k].email == req.customerEmail) ==>
      Book(store, req).store.users == store.users
    ensures (forall k :: 0 <= k < |store.users| ==> store.users[k].email != req.customerEmail) ==>
      && |Book(store, req).store.users| == |store.users| + 1
      && Book(store, req).store.users[|store.users|].email == req.customerEmail
      && Book(store, req).store.users[|store.users|].name == req.customerName
      && Book(store, req).store.users[|store.users|].phone == req.customerPhone
      && Book(store, req).store.users[|store.users|].role == Client
      && Book(store, req).store.users[|store.users|].id == Book(store, req).result.value.clientId
  {
  }

  /** The window's boundaries at commit time: an active booking of the salon
      starting exactly at the requested time blocks; when the salon's only
      active booking starts exactly one requested duration earlier, the
      request goes through the check. */
  lemma CommitBoundaries(store: Store, req: BookRequest, b: Booking)
    requires HasService(store.services, req.serviceId) && DurationOf(store.services, req.serviceId) > 0
    requires b in store.bookings && b.salonId == req.salonId && IsActive(b.status)
    ensures b.date == req.date ==> Book(store, req).result == Err(SlotUnavailable)
    ensures (b.date == req.date - DurationOf(store.services, req.serviceId)
             && forall c :: c in store.bookings && c != b ==> !(c.salonId == req.salonId && IsActive(c.status)))
        ==> Book(store, req).result != Err(SlotUnavailable)
  {
  }

  // ---------------------------------------------------------------------
  // The no-double-booking invariant
  // ---------------------------------------------------------------------

  /** No two active bookings of one salon overlap, each measured by its own
      service. */
  predicate NoDoubleBooking(store: Store) {
    forall i, j :: 0 <= i < j < |store.bookings|
      && store.bookings[i].salonId == store.bookings[j].salonId
      && IsActive(store.bookings[i].status) && IsActive(store.bookings[j].status)
      ==> !Overlaps(BookingInterval(store.services, store.bookings[i]), BookingInterval(store.services, store.bookings[j]))
  }

  /** The rule both call sites were meant to share: an active booking of the
      salon whose own interval overlaps the requested one. */
  predicate OverlapBlocks(b: Booking, services: seq<Service>, salonId: Id, request: Interval) {
    b.salonId == salonId && IsActive(b.status) && Overlaps(request, BookingInterval(services, b))
  }

  /** POST /book with the commit check replaced by the overlap rule. */
  function BookGuarded(store: Store, req: BookRequest): (o: Outcome)
    ensures !HasService(store.services, req.serviceId) <==> o.result == Err(ServiceNotFound)
    ensures HasService(store.services, req.serviceId) ==>
      (o.result == Err(SlotUnavailable)
       <==> exists i :: 0 <= i < |store.bookings|
              && OverlapBlocks(store.bookings[i], store.services, req.salonId,
                               Interval(req.date, DurationOf(store.services, req.serviceId))))
    ensures o.result.Err? && o.result.error != ServerError ==> o.store == store
    ensures o.result == Err(ServerError) ==> o.store.bookings == store.bookings
    ensures o.result.Ok? ==>
      && o.store.bookings == store.bookings + [o.result.value]
      && o.result.value.status == Confirmed
      && o.result.value.date == req.date
      && o.result.value.salonId == req.salonId
      && o.result.value.serviceId == req.serviceId
    ensures o.store.services == store.services
  {
    FindersAgree(store, req.serviceId, req.salonId, req.customerEmail);
    match FindService(store.services, req.serviceId)
    case None => Outcome(Err(ServiceNotFound), store)
    case Some(service) =>
      var request := Interval(req.date, service.duration);
      if FirstIndex(store.bookings, (b: Booking) => OverlapBlocks(b, store.services, req.salonId, request)).Some? then
        Outcome(Err(SlotUnavailable), store)
      else
        var (user, users) := FindOrCreateCustomer(store.users, req.customerName, req.customerEmail, req.customerPhone);
        var withUser := store.(users := users);
        if FindSalon(store.salons, req.salonId).None? then
          Outcome(Err(ServerError), withUser)
        else
          var booking := Booking(FreshId(store.bookings, (b: Booking) => b.id), req.salonId, service.id,
                                 user.id, req.date, Confirmed, service.price);
          Outcome(Ok(booking), withUser.(bookings := store.bookings + [booking]))
  }

  /** With the overlap rule at commit time, booking never double-books. */
  lemma GuardedBookKeepsNoDoubleBooking(store: Store, req: BookRequest)
    requires NoDoubleBooking(store)
    ensures NoDoubleBooking(BookGuarded(store, req).store)
  {
  }

  /** As written, the commit check lets a booking through that starts inside
      the requested interval: 10:30 for an hour is booked, 10:00 for an hour
      is still accepted, and the salon is double-booked. */
  lemma AsWrittenBookDoubleBooks(store: Store, req: BookRequest)
    requires store == Store(
      [Salon(1, 7, map[])],
      [Service(2, 1, 60, 50.0, true)],
      [User(3, "ann@example.com", "Ann", "555", Client)],
      [Booking(4, 1, 2, 3, 630, Confirmed, 50.0)])
    requires req == BookRequest(1, 2, 600, "Bo", "bo@example.com", "556")
    ensures NoDoubleBooking(store)
    ensures Book(store, req).result.Ok?
    ensures !NoDoubleBooking(Book(store, req).store)
  {
    var request := Interval(600, 60);
    assert DurationOf(store.services, 2) == 60;
    assert !CommitBlocks(store.bookings[0], 1, request);
    assert store.salons[0].id == 1;
    var after := Book(store, req).store;
    assert after.bookings[0] == store.bookings[0];
    assert after.bookings[1].date == 600 && after.bookings[1].serviceId == 2;
    assert Overlaps(BookingInterval(after.services, after.bookings[0]), BookingInterval(after.services, after.bookings[1]));
  }

  /** The corrected guard refuses the same request. */
  lemma GuardedRefusesOverlap(store: Store, req: BookRequest)
    requires store == Store(
      [Salon(1, 7, map[])],
      [Service(2, 1, 60, 50.0, true)],
      [User(3, "ann@example.com", "Ann", "555", Client)],
      [Booking(4, 1, 2, 3, 630, Confirmed, 50.0)])
    requires req == BookRequest(1, 2, 600, "Bo", "bo@example.com", "556")
    ensures BookGuarded(store, req).result == Err(SlotUnavailable)
  {
  }

  // ---------------------------------------------------------------------
  // Status update
  // ---------------------------------------------------------------------

  /** The booking's salon is owned by the caller. */
  predicate OwnedBy(salons: seq<Salon>, b: Booking, callerId: Id) {
    match FindSalon(salons, b.salonId)
    case None => false
    case Some(s) => s.ownerId == callerId
  }

  /** PATCH /:id/status: find the booking among the caller's salon's, then
      overwrite its status with any value. */
  function UpdateStatus(store: Store, bookingId: Id, status: Status, callerId: Id): (o: Outcome)
    ensures o.result.Err? <==>
      forall i :: 0 <= i < |store.bookings| ==> !(store.bookings[i].id == bookingId && OwnedBy(store.salons, store.bookings[i], callerId))
    ensures o.result.Err? ==> o.result.error == BookingNotFound && o.store == store
    ensures o.store.salons == store.salons && o.store.services == store.services && o.store.users == store.users
    ensures |o.store.bookings| == |store.bookings|
    ensures o.result.Ok? ==>
      exists k :: 0 <= k < |store.bookings|
        && store.bookings[k].id == bookingId && OwnedBy(store.salons, store.bookings[k], callerId)
        && o.store.bookings[k] == store.bookings[k].(status := status)
        && o.result.value == o.store.bookings[k]
        && forall i :: 0 <= i < |store.bookings| && i != k ==> o.store.bookings[i] == store.bookings[i]
  {
    match FirstIndex(store.bookings, (b: Booking) => b.id == bookingId && OwnedBy(store.salons, b, callerId))
    case None => Outcome(Err(BookingNotFound), store)
    case Some(k) =>
      var updated := store.bookings[k].(status := status);
      Outcome(Ok(updated), store.(bookings := store.bookings[k := updated]))
  }

  /** After a status update to cancelled, completed or no-show the booking no
      longer counts: the day's fetch is what it would be without it. */
  lemma DeactivationFreesSlot(store: Store, bookingId: Id, status: Status, callerId: Id, salonId: Id, day: int)
    requires !IsActive(status)
    requires UpdateStatus(store, bookingId, status, callerId).result.Ok?
    ensures
      exists k :: 0 <= k < |store.bookings| && store.bookings[k].id == bookingId
        && DayBookings(UpdateStatus(store, bookingId, status, callerId).store.bookings, salonId, day)
           == DayBookings(store.bookings[..k] + store.bookings[k + 1..], salonId, day)
  {
    var o := UpdateStatus(store, bookingId, status, callerId);
    var k :| 0 <= k < |store.bookings| && store.bookings[k].id == bookingId
      && o.store.bookings[k] == store.bookings[k].(status := status)
      && forall i :: 0 <= i < |store.bookings| && i != k ==> o.store.bookings[i] == store.bookings[i];
    assert o.store.bookings == store.bookings[k := store.bookings[k].(status := status)];
    DropInactive(store.bookings, k, store.bookings[k].(status := status), salonId, day);
  }

  /** Replacing a booking by an inactive one removes it from every fetch. */
  lemma DropInactive(bs: seq<Booking>, k: nat, b: Booking, salonId: Id, day: int)
    requires k < |bs| && !IsActive(b.status)
    ensures DayBookings(bs[k := b], salonId, day) == DayBookings(bs[..k] + bs[k + 1..], salonId, day)
  {
    assert bs[k := b] == bs[..k] + [b] + bs[k + 1..];
    DayBookingsAppend(bs[..k] + [b], bs[k + 1..], salonId, day);
    DayBookingsAppend(bs[..k], [b], salonId, day);
    DayBookingsAppend(bs[..k], bs[k + 1..], salonId, day);
    assert DayBookings([b], salonId, day) == [];
    assert DayBookings(bs[..k], salonId, day) + [] == DayBookings(bs[..k], salonId, day);
  }

  /** Deactivating a booking never creates a double booking. */
  lemma DeactivationKeepsNoDoubleBooking(store: Store, bookingId: Id, status: Status, callerId: Id)
    requires NoDoubleBooking(store) && !IsActive(status)
    ensures NoDoubleBooking(UpdateStatus(store, bookingId, status, callerId).store)
  {
  }

  /** The update imposes no transition rules: re-confirming a cancelled booking
      whose time was taken since double-books the salon. */
  lemma ReactivationCanDoubleBook(store: Store)
    requires store == Store(
      [Salon(1, 7, map[])],
      [Service(2, 1, 60, 50.0, true)],
      [User(3, "ann@example.com", "Ann", "555", Client)],
      [Booking(4, 1, 2, 3, 600, Cancelled, 50.0), Booking(5, 1, 2, 3, 600, Confirmed, 50.0)])
    ensures NoDoubleBooking(store)
    ensures UpdateStatus(store, 4, Confirmed, 7).result.Ok?
    ensures !NoDoubleBooking(UpdateStatus(store, 4, Confirmed, 7).store)
  {
    assert OwnedBy(store.salons, store.bookings[0], 7);
    var after := UpdateStatus(store, 4, Confirmed, 7).store;
    assert after.bookings[0].status == Confirmed && after.bookings[1] == store.bookings[1];
    assert DurationOf(store.services, 2) == 60;
    assert Overlaps(BookingInterval(after.services, after.bookings[0]), BookingInterval(after.services, after.bookings[1]));
  }

  // ---------------------------------------------------------------------
  // Database guarantees are kept
  // ---------------------------------------------------------------------

  /** The customer step keeps ids and emails unique and only appends. */
  lemma CustomerKeepsUnique(users: seq<User>, name: string, email: string, phone: string)
    requires forall i, j :: 0 <= i < j < |users| ==> users[i].id != users[j].id
    requires forall i, j :: 0 <= i < j < |users| ==> users[i].email != users[j].email
    ensures var users' := FindOrCreateCustomer(users, name, email, phone).1;
      && |users| <= |users'|
      && (forall k :: 0 <= k < |users| ==> users'[k] == users[k])
      && (forall i, j :: 0 <= i < j < |users'| ==> users'[i].id != users'[j].id)
      && (forall i, j :: 0 <= i < j < |users'| ==> users'[i].email != users'[j].email)
  {
  }

  /** Booking keeps the database's guarantees: the new booking's id is fresh,
      a new customer's id and email are fresh, and every reference resolves. */
  lemma BookKeepsValid(store: Store, req: BookRequest)
    requires Valid(store)
    ensures Valid(Book(store, req).store)
  {
    BookKeepsUniqueKeys(store, req);
    BookKeepsReferences(store, req);
  }

  lemma BookKeepsUniqueKeys(store: Store, req: BookRequest)
    requires UniqueKeys(store)
    ensures UniqueKeys(Book(store, req).store)
  {
    var o := Book(store, req);
    if o.result.Ok? || o.result == Err(ServerError) {
      CustomerKeepsUnique(store.users, req.customerName, req.customerEmail, req.customerPhone);
    }
  }

  lemma BookKeepsReferences(store: Store, req: BookRequest)
    requires ReferencesExist(store)
    ensures ReferencesExist(Book(store, req).store)
  {
    var o := Book(store, req);
    if o.result.Ok? || o.result == Err(ServerError) {
      var users := o.store.users;
      assert forall k :: 0 <= k < |store.users| ==> users[k] == store.users[k];
      forall i | 0 <= i < |store.bookings|
        ensures HasUser(users, store.bookings[i].clientId)
      {
        var k :| 0 <= k < |store.users| && store.users[k].id == store.bookings[i].clientId;
        assert users[k] == store.users[k];
      }
      if o.result.Ok? {
        FindersAgree(store, req.serviceId, req.salonId, req.customerEmail);
        var bs' := o.store.bookings;
        forall i | 0 <= i < |bs'|
          ensures HasUser(users, bs'[i].clientId)
        {
          if i < |store.bookings| {
            assert bs'[i] == store.bookings[i];
          }
        }
      }
    }
  }

  lemma UpdateStatusKeepsValid(store: Store, bookingId: Id, status: Status, callerId: Id)
    requires Valid(store)
    ensures Valid(UpdateStatus(store, bookingId, status, callerId).store)
  {
  }
}

=== FILE: slots.dfy ===
/**
  The slot generator: a salon's working hours for one weekday, a service
  duration and the day's fetched bookings give the offered start times, on a
  30-minute grid from opening time, as "HH:mm" labels. Times are minutes since
  midnight of the requested day.
 */
module Slots {
  import opened Results
  import opened Clock
  import opened Intervals

  datatype Weekday = Monday | Tuesday | Wednesday | Thursday | Friday | Saturday | Sunday

  /** One weekday's entry of a salon's working hours, as stored. */
  datatype DayHours = DayHours(open: string, close: string)

  type WorkingHours = map<Weekday, DayHours>

  /** The hours used for a weekday the salon has no entry for. */
  const DefaultHours := DayHours("09:00", "18:00")

  const SlotStep := 30

  /** The opening and closing minute of the requested day. */
  datatype Window = Window(open: nat, close: nat)

  function HoursFor(hours: WorkingHours, day: Weekday): DayHours {
    if day in hours then hours[day] else DefaultHours
  }

  /** The day's window; a time that cannot be read gives no window (the
      comparisons on an invalid date are all false, so nothing is offered). */
  function DayWindow(hours: WorkingHours, day: Weekday): Option<Window> {
    var h := HoursFor(hours, day);
    match (ParseClock(h.open), ParseClock(h.close))
    case (Some(o), Some(c)) => Some(Window(o, c))
    case _ => None
  }

  /** A weekday without an entry gets 09:00-18:00; one with an entry gets it. */
  lemma DayWindowFallback(hours: WorkingHours, day: Weekday)
    ensures day !in hours ==> DayWindow(hours, day) == Some(Window(540, 1080))
    ensures day in hours && ClockShaped(hours[day].open) && ClockShaped(hours[day].close)
        ==> DayWindow(hours, day) == Some(Window(ParseClock(hours[day].open).value, ParseClock(hours[day].close).value))
    ensures day in hours && !(ClockShaped(hours[day].open) && ClockShaped(hours[day].close))
        ==> DayWindow(hours, day) == None
  {
  }

  /** The candidate starts from `from` on, every SlotStep minutes, while before `close`. */
  function Grid(from: int, close: int): seq<int>
    decreases close - from
  {
    if from >= close then [] else [from] + Grid(from + SlotStep, close)
  }

  /** A start reachable from `open` in whole grid steps. */
  predicate OnGrid(open: int, x: int) {
    open <= x && (x - open) % SlotStep == 0
  }

  predicate StrictlyAscending(xs: seq<int>) {
    forall i, j :: 0 <= i < j < |xs| ==> xs[i] < xs[j]
  }

  /** The grid has ceil((close - from) / 30) points, from + 30 k for the k-th. */
  lemma {:induction false} GridShape(from: int, close: int)
    ensures |Grid(from, close)| == if from >= close then 0 else (close - from + SlotStep - 1) / SlotStep
    ensures forall k :: 0 <= k < |Grid(from, close)| ==> Grid(from, close)[k] == from + SlotStep * k
    decreases close - from
  {
    if from < close {
      GridShape(from + SlotStep, close);
      var g := Grid(from, close);
      forall k | 0 <= k < |g|
        ensures g[k] == from + SlotStep * k
      {
        if k > 0 {
          assert g[k] == Grid(from + SlotStep, close)[k - 1];
        }
      }
    }
  }

  /** Exactly the on-grid minutes before `close` are candidates. */
  lemma {:induction false} GridMembership(from: int, close: int, x: int)
    ensures x in Grid(from, close) <==> OnGrid(from, x) && x < close
    decreases close - from
  {
    if from < close {
      GridMembership(from + SlotStep, close, x);
      assert Grid(from, close) == [from] + Grid(from + SlotStep, close);
      if x != from && OnGrid(from, x) {
        assert OnGrid(from + SlotStep, x);
      }
    }
  }

  lemma {:induction false} GridAscending(from: int, close: int)
    ensures StrictlyAscending(Grid(from, close))
  {
    GridShape(from, close);
  }

  /** A start is offered when the service ends by closing time and the slot
      conflicts with none of the fetched bookings. */
  predicate Offerable(start: int, duration: int, close: int, booked: seq<Interval>) {
    start + duration <= close && !ConflictsWithAny(Interval(start, duration), booked)
  }

  /** The candidates that are offerable, in their original order. */
  function Keep(cands: seq<int>, duration: int, close: int, booked: seq<Interval>): seq<int> {
    if cands == [] then []
    else (if Offerable(cands[0], duration, close, booked) then [cands[0]] else [])
         + Keep(cands[1..], duration, close, booked)
  }

  /** Keeping is filtering: exactly the offerable candidates survive, and no
      more of them than there were candidates. */
  lemma {:induction false} KeepMembers(cands: seq<int>, duration: int, close: int, booked: seq<Interval>)
    ensures |Keep(cands, duration, close, booked)| <= |cands|
    ensures forall x :: x in Keep(cands, duration, close, booked) <==> x in cands && Offerable(x, duration, close, booked)
  {
    if cands != [] {
      KeepMembers(cands[1..], duration, close, booked);
      assert cands == [cands[0]] + cands[1..];
    }
  }

  /** When no candidate is offerable nothing is kept. */
  lemma {:induction false} KeepNone(cands: seq<int>, duration: int, close: int, booked: seq<Interval>)
    requires forall i :: 0 <= i < |cands| ==> !Offerable(cands[i], duration, close, booked)
    ensures Keep(cands, duration, close, booked) == []
  {
    if cands != [] {
      KeepNone(cands[1..], duration, close, booked);
    }
  }

  /** Keeping preserves strict ascent. */
  lemma {:induction false} KeepAscending(cands: seq<int>, duration: int, close: int, booked: seq<Interval>)
    requires StrictlyAscending(cands)
    ensures StrictlyAscending(Keep(cands, duration, close, booked))
  {
    if cands != [] {
      var tail := cands[1..];
      assert StrictlyAscending(tail) by {
        forall i, j | 0 <= i < j < |tail|
          ensures tail[i] < tail[j]
        {
          assert tail[i] == cands[i + 1] && tail[j] == cands[j + 1];
        }
      }
      KeepAscending(tail, duration, close, booked);
      var rest := Keep(tail, duration, close, booked);
      AscendingTail(cands);
      KeepMembers(tail, duration, close, booked);
      ConsAscending(cands[0], rest);
    }
  }

  /** The head of an ascending sequence is below every later element. */
  lemma AscendingTail(xs: seq<int>)
    requires |xs| > 0 && StrictlyAscending(xs)
    ensures forall x :: x in xs[1..] ==> xs[0] < x
  {
  }

  lemma ConsAscending(c: int, rest: seq<int>)
    requires StrictlyAscending(rest)
    ensures (forall x :: x in rest ==> c < x) ==> StrictlyAscending([c] + rest)
  {
    if forall x :: x in rest ==> c < x {
      var s := [c] + rest;
      forall i, j | 0 <= i < j < |s|
        ensures s[i] < s[j]
      {
        assert s[j] == rest[j - 1];
        if i > 0 {
          assert s[i] == rest[i - 1];
        } else {
          assert rest[j - 1] in rest;
        }
      }
    }
  }

  /** The offered starts of a day with a readable window. */
  function SlotStarts(w: Window, duration: int, booked: seq<Interval>): seq<int> {
    Keep(Grid(w.open, w.close), duration, w.close, booked)
  }

  function OfferedStarts(hours: WorkingHours, day: Weekday, duration: int, booked: seq<Interval>): seq<int> {
    match DayWindow(hours, day)
    case None => []
    case Some(w) => SlotStarts(w, duration, booked)
  }

  /** An offered start lies on the weekday's grid before closing, the
      service ends by closing, and it overlaps nothing booked, whatever the
      lengths. */
  lemma OfferedStartFits(hours: WorkingHours, day: Weekday, duration: int, booked: seq<Interval>, x: int)
    requires x in OfferedStarts(hours, day, duration, booked)
    ensures DayWindow(hours, day).Some?
    ensures OnGrid(DayWindow(hours, day).value.open, x) && x < DayWindow(hours, day).value.close
    ensures x + duration <= DayWindow(hours, day).value.close
    ensures !OverlapsAny(Interval(x, duration), booked)
  {
    SlotStartsCharacterized(DayWindow(hours, day).value, duration, booked, x);
    forall i | 0 <= i < |booked|
      ensures !Overlaps(Interval(x, duration), booked[i])
    {
      OverlapImpliesConflict(Interval(x, duration), booked[i]);
    }
  }

  function Labels(starts: seq<int>): (labels: seq<string>)
    ensures |labels| == |starts|
    ensures forall i :: 0 <= i < |starts| ==> labels[i] == Label(starts[i])
  {
    seq(|starts|, i requires 0 <= i < |starts| => Label(starts[i]))
  }

  lemma LabelsAppend(a: seq<int>, b: seq<int>)
    ensures Labels(a + b) == Labels(a) + Labels(b)
  {
  }

  /** Sound and complete: a minute is offered iff it is on the grid from
      opening, starts before closing, lets the service end by closing, and
      conflicts with no fetched booking. */
  lemma SlotStartsCharacterized(w: Window, duration: int, booked: seq<Interval>, x: int)
    ensures x in SlotStarts(w, duration, booked)
        <==> OnGrid(w.open, x) && x < w.close && x + duration <= w.close
             && !ConflictsWithAny(Interval(x, duration), booked)
  {
    GridMembership(w.open, w.close, x);
    KeepMembers(Grid(w.open, w.close), duration, w.close, booked);
  }

  /** With positive durations, "conflicts with no fetched booking" is "overlaps
      no fetched booking's half-open interval". */
  lemma SlotStartsByOverlap(w: Window, duration: int, booked: seq<Interval>, x: int)
    requires duration > 0 && AllPositive(booked)
    ensures x in SlotStarts(w, duration, booked)
        <==> OnGrid(w.open, x) && x + duration <= w.close && !OverlapsAny(Interval(x, duration), booked)
  {
    SlotStartsCharacterized(w, duration, booked, x);
    ConflictsWithAnyIsOverlapsAny(Interval(x, duration), booked);
  }

  /** Every offered slot lies inside the window: open <= s and s + duration <= close. */
  lemma SlotsWithinWindow(w: Window, duration: int, booked: seq<Interval>)
    ensures forall x :: x in SlotStarts(w, duration, booked) ==> w.open <= x && x + duration <= w.close
  {
    forall x | x in SlotStarts(w, duration, booked)
      ensures w.open <= x && x + duration <= w.close
    {
      SlotStartsCharacterized(w, duration, booked, x);
    }
  }

  /** Offered slots ascend strictly, each open + 30 k, and there are at most
      ceil((close - open) / 30) of them. */
  lemma SlotsOrderedOnGrid(w: Window, duration: int, booked: seq<Interval>)
    ensures StrictlyAscending(SlotStarts(w, duration, booked))
    ensures forall x :: x in SlotStarts(w, duration, booked) ==> OnGrid(w.open, x)
    ensures |SlotStarts(w, duration, booked)| <= if w.open >= w.close then 0 else (w.close - w.open + SlotStep - 1) / SlotStep
  {
    GridAscending(w.open, w.close);
    KeepAscending(Grid(w.open, w.close), duration, w.close, booked);
    KeepMembers(Grid(w.open, w.close), duration, w.close, booked);
    GridShape(w.open, w.close);
    forall x | x in SlotStarts(w, duration, booked)
      ensures OnGrid(w.open, x)
    {
      SlotStartsCharacterized(w, duration, booked, x);
    }
  }

  /** A closed or inverted window, or a service longer than the window, offers nothing. */
  lemma SlotsEmpty(w: Window, duration: int, booked: seq<Interval>)
    requires w.close <= w.open || duration > w.close - w.open
    ensures SlotStarts(w, duration, booked) == []
  {
    var g := Grid(w.open, w.close);
    forall i | 0 <= i < |g|
      ensures !Offerable(g[i], duration, w.close, booked)
    {
      GridMembership(w.open, w.close, g[i]);
    }
    KeepNone(g, duration, w.close, booked);
  }

  /** Nothing booked, and a service that exactly fills the window: it is
      offered at opening time and nowhere else (120 minutes on 09:00-11:00
      gives 09:00). */
  lemma ExactFitOffered(w: Window, duration: int)
    requires w.open < w.close && duration == w.close - w.open
    ensures SlotStarts(w, duration, []) == [w.open]
  {
    var rest := Grid(w.open + SlotStep, w.close);
    assert Grid(w.open, w.close) == [w.open] + rest;
    forall i | 0 <= i < |rest|
      ensures !Offerable(rest[i], duration, w.close, [])
    {
      GridMembership(w.open + SlotStep, w.close, rest[i]);
    }
    KeepNone(rest, duration, w.close, []);
    assert ([w.open] + rest)[1..] == rest;
  }

  /** Candidates that are all offerable are all kept. */
  lemma {:induction false} KeepAll(cands: seq<int>, duration: int, close: int, booked: seq<Interval>)
    requires forall i :: 0 <= i < |cands| ==> Offerable(cands[i], duration, close, booked)
    ensures Keep(cands, duration, close, booked) == cands
  {
    if cands != [] {
      KeepAll(cands[1..], duration, close, booked);
      assert cands == [cands[0]] + cands[1..];
    }
  }

  /** Nothing booked, a window of whole grid steps and a service no longer
      than a step: every grid point is offered, open + 30 k for k below
      (close - open) / 30. */
  lemma EveryStepOffered(w: Window, duration: int)
    requires w.open < w.close && (w.close - w.open) % SlotStep == 0 && duration <= SlotStep
    ensures |SlotStarts(w, duration, [])| == (w.close - w.open) / SlotStep
    ensures forall k :: 0 <= k < |SlotStarts(w, duration, [])| ==> SlotStarts(w, duration, [])[k] == w.open + SlotStep * k
  {
    var g := Grid(w.open, w.close);
    GridShape(w.open, w.close);
    forall i | 0 <= i < |g|
      ensures Offerable(g[i], duration, w.close, [])
    {
      assert g[i] == w.open + SlotStep * i;
      assert w.close - w.open == SlotStep * ((w.close - w.open) / SlotStep);
    }
    KeepAll(g, duration, w.close, []);
  }

  /** Default hours, a 30-minute service, nothing booked: 18 slots, 09:00 to 17:30. */
  lemma DefaultDayScenario(w: Window)
    requires w == Window(540, 1080)
    ensures |SlotStarts(w, 30, [])| == 18
    ensures SlotStarts(w, 30, [])[0] == 540 && SlotStarts(w, 30, [])[17] == 1050
  {
    EveryStepOffered(w, 30);
  }

  /** A 60-minute service around a 30-minute booking at 10:00: 09:30 and 10:00
      are withheld, 09:00 and 10:30 remain. */
  lemma NeighbourScenario(w: Window, booked: seq<Interval>)
    requires w == Window(540, 1080) && booked == [Interval(600, 30)]
    ensures 540 in SlotStarts(w, 60, booked) && 630 in SlotStarts(w, 60, booked)
    ensures 570 !in SlotStarts(w, 60, booked) && 600 !in SlotStarts(w, 60, booked)
  {
    assert !SlotConflict(Interval(540, 60), booked[0]) && !SlotConflict(Interval(630, 60), booked[0]);
    assert SlotConflict(Interval(570, 60), booked[0]) && SlotConflict(Interval(600, 60), booked[0]);
    assert OnGrid(w.open, 540) && OnGrid(w.open, 630);
    SlotStartsCharacterized(w, 60, booked, 540);
    SlotStartsCharacterized(w, 60, booked, 570);
    SlotStartsCharacterized(w, 60, booked, 600);
    SlotStartsCharacterized(w, 60, booked, 630);
  }

  /** One grid step of the generator. */
  lemma KeepStep(current: int, close: int, duration: int, booked: seq<Interval>)
    requires current < close
    ensures Keep(Grid(current, close), duration, close, booked)
         == (if Offerable(current, duration, close, booked) then [current] else [])
            + Keep(Grid(current + SlotStep, close), duration, close, booked)
  {
  }

  /** The generator as written: walk the grid, keep starts that fit and do not
      conflict, format them. */
  method GenerateAvailableSlots(hours: WorkingHours, day: Weekday, duration: int, booked: seq<Interval>)
    returns (slots: seq<string>)
    ensures slots == Labels(OfferedStarts(hours, day, duration, booked))
  {
    var window := DayWindow(hours, day);
    match window
    case None =>
      slots := [];
    case Some(w) =>
      slots := WalkGrid(w, duration, booked);
  }

  /** The loop over the grid, from opening while before closing. */
  method WalkGrid(w: Window, duration: int, booked: seq<Interval>) returns (slots: seq<string>)
    ensures slots == Labels(SlotStarts(w, duration, booked))
  {
    slots := [];
    ghost var starts: seq<int> := [];
    var current: int := w.open;
    while current < w.close
      invariant starts + Keep(Grid(current, w.close), duration, w.close, booked) == SlotStarts(w, duration, booked)
      invariant slots == Labels(starts)
      decreases w.close - current
    {
      KeepStep(current, w.close, duration, booked);
      var slotEnd := current + duration;
      var offered := false;
      if slotEnd <= w.close {
        var hasConflict := HasConflict(Interval(current, duration), booked);
        offered := !hasConflict;
      }
      if offered {
        LabelsAppend(starts, [current]);
        starts := starts + [current];
        slots := slots + [Label(current)];
      }
      current := current + SlotStep;
    }
  }

  /** `existingBookings.some(...)` with the three-clause test. */
  method HasConflict(slot: Interval, booked: seq<Interval>) returns (found: bool)
    ensures found <==> ConflictsWithAny(slot, booked)
  {
    found := false;
    var i := 0;
    while i < |booked| && !found
      invariant 0 <= i <= |booked|
      invariant found <==> exists j :: 0 <= j < i && SlotConflict(slot, booked[j])
    {
      found := SlotConflict(slot, booked[i]);
      i := i + 1;
    }
  }
}
